=== FILE: README.md ===
# Natural-language database chatbot: the deterministic core

The chatbot turns a user's question into SQL with one language model. It runs
the statement against a sqlite database, then has a second model summarise the
rows. This project models in Dafny the deterministic layer between those calls:

- **Statement extraction.** The reply is decoded as JSON: first the whole text, then the slice from the first `{` through the last `}`. The statement is the `SQL` field of the first element of the `query` array. A reply with no usable statement gets a fixed message (module `Extraction`).
- **The query guard.** ` LIMIT 50` is appended when the case-sensitive substring `LIMIT` is absent. Then the first `SELECT` becomes `SELECT DISTINCT` (module `QueryGuard`).
- **Row shaping.** Each fetched tuple becomes `dict(zip(labels, tuple))`. Pairing stops at the shorter of the two, and a later duplicate label overwrites an earlier one (modules `Dicts`, `Rows`).
- **The request handler's outcome.** Error paths return `({}, message)`. Success returns `(summary, {"result": rows})`. Uncaught Python exceptions are an explicit `Crashed` outcome (module `Chatbot`).
- **The schema document built at start-up.** It maps each table name to its column types and sample rows (module `Schema`). This part is imperative: `Schema.SchemaWithSamples` is a method whose loop over tables calls `Schema.SampleRows`, the loop over sample rows; it is proved equal to the specification function `Schema.SchemaOf`.

Python semantics are spelled out over `string = seq<char>`:
- `in` on strings, `str.index`/`str.rindex` and `str.replace(old, new, 1)` are defined in module `Strings`.
- Python's slice rule (a slice is empty when its start passes its end) is written out where the reply is cut, in `Extraction.ParseReply`.
- Python's insertion-ordered dict is an association list. `d[k] = v` is `Dicts.Put`; `dict(pairs)` is `Dicts.FromPairs`.
- `json.loads` is a parameter `decode: string -> Option<Json>`.
- The database is a parameter `execute: string -> ExecResult`.
- The summarising model is a parameter `summarize`.

Two behaviours of the code are easy to misread; the model states both as written:

- **Error output position.** The interface labels its first output "Summary" and its second the JSON result (two_model_approach.py:170). The error paths return `({}, message)` (lines 128, 135, 152), so an error message lands in the second output, while success returns `(summary, result)` (line 162). `Chatbot.HandleRequest` states the swapped positions.
- **Uncaught exceptions.** The handler catches only `json.JSONDecodeError` and `ValueError` around the parse (lines 121, 127) and `sqlite3.OperationalError` around execution (line 151). Everything else escapes, and the model makes each such case a `Crashed` outcome:
  - a non-object reply;
  - a `query` value whose `[0]` raises: IndexError for an empty list or string, KeyError for an object, TypeError for null, a number or a boolean;
  - a `query[0]` that is not an object, which has no `.get` (AttributeError);
  - a truthy non-string `SQL` value;
  - sqlite errors other than `OperationalError`;
  - a statement without result columns;
  - BLOB values that `json.dumps` rejects.

  The exception kinds are those of Python 3.10 and later. Earlier versions of the sqlite3 module raise ValueError instead of TypeError when `execute` is given something other than text.

## Model

| member | source | states |
|---|---|---|
| Strings.Contains | two_model_approach.py:140 | Python's `t in s` on strings: true exactly when `t` occurs at some position of `s` |
| Strings.ReplaceFirst | two_model_approach.py:145 | `s.replace(pat, rep, 1)`: unchanged when `pat` does not occur, otherwise only the first occurrence is replaced and the text before and after it is kept |
| Strings.IndexOf | two_model_approach.py:123 | `str.index`: the position of the first occurrence of the character; absent exactly when the character does not occur (the ValueError case) |
| Strings.LastIndexOf | two_model_approach.py:124 | `str.rindex`: the position of the last occurrence; absent exactly when the character does not occur |
| QueryGuard.AddLimit | two_model_approach.py:140-141 | ` LIMIT 50` is appended exactly when the case-sensitive substring `LIMIT` does not occur anywhere; otherwise the statement is unchanged |
| QueryGuard.AddDistinct | two_model_approach.py:144-145 | without `SELECT` the statement is unchanged; otherwise only the first `SELECT` becomes `SELECT DISTINCT`, the text before and after it is unchanged and the length grows by exactly 9 |
| QueryGuard.SelectLimitApart | two_model_approach.py:140-145 | an occurrence of `SELECT` and one of `LIMIT` never overlap |
| QueryGuard.AddDistinctKeepsLimit | two_model_approach.py:144-145 | the DISTINCT insertion cannot destroy a `LIMIT` occurrence |
| QueryGuard.Guard | two_model_approach.py:140-145 | the guard, in the source's order; every guarded statement contains `LIMIT`; each rewrite that fires adds 9 characters (` LIMIT 50` when `LIMIT` is absent, ` DISTINCT` when `SELECT` is present) |
| QueryGuard.LimitClauseAddsNoSelect | two_model_approach.py:141 | appending ` LIMIT 50` neither creates nor removes a `SELECT` occurrence |
| QueryGuard.GuardWithoutLimit | two_model_approach.py:140-145 | for a statement without `LIMIT`, the guard is the DISTINCT rewrite followed by ` LIMIT 50` |
| QueryGuard.GuardKeepsSelect | two_model_approach.py:140-145 | the guarded statement contains `SELECT` exactly when the original does |
| QueryGuard.GuardTwice | two_model_approach.py:140-145 | the guard is not idempotent: a second pass never appends another limit, and it leaves the statement unchanged exactly when `SELECT` is absent; with `SELECT` present it grows by another 9 characters (a second ` DISTINCT`) |
| QueryGuard.AddDistinctAtStart | two_model_approach.py:144-145 | a statement starting with `SELECT` gets `SELECT DISTINCT` in front of the unchanged rest |
| QueryGuard.PlainSelectGuarded | two_model_approach.py:140-145 | `SELECT` + rest with no `LIMIT` is guarded to `SELECT DISTINCT` + rest + ` LIMIT 50` |
| QueryGuard.GuardOfLimitedSelect | two_model_approach.py:140-145 | a statement starting with `SELECT` and already holding `LIMIT` only gains ` DISTINCT` after its first keyword |
| QueryGuard.PlainSelectGuardedTwice | two_model_approach.py:140-145 | guarding such a statement twice yields `SELECT DISTINCT DISTINCT` + rest + ` LIMIT 50` |
| QueryGuard.LowercaseStatementGuard | two_model_approach.py:140-145 | a statement without upper-case letters (lower-case `select ... limit 10`) is only suffixed with ` LIMIT 50`, and gets no DISTINCT |
| Extraction.ParseReply | two_model_approach.py:119-128 | the whole reply is used when it decodes; otherwise the only text tried is the slice from the first `{` through the last `}` (empty when the last `}` precedes the first `{`), and a reply missing either brace fails |
| Extraction.Subscript0 | two_model_approach.py:131 | Python `v[0]`: the first element of a non-empty list or the first character of a non-empty string; IndexError on an empty list or string; KeyError on an object; TypeError on null, a number or a boolean |
| Extraction.StatementOf | two_model_approach.py:131-135 | a statement is found exactly when the `SQL` field of the first element of `query` is a non-empty string, and it is that string; a missing `query`, a first element without `SQL`, or a falsy `SQL` value gives "no statement"; a `query` value whose `[0]` raises passes that exception on (IndexError, KeyError or TypeError); a non-object reply or a non-object `query[0]` raises AttributeError; a truthy non-string `SQL` value `v` raises exactly `NonStringStatementError(v)` |
| Extraction.NonStringStatementError | two_model_approach.py:140-149 | the exception a truthy non-string `SQL` value raises, computed step by step in source order (`"LIMIT" in v`, `v += " LIMIT 50"`, `"SELECT" in v`, `.replace` or `execute`): always TypeError or AttributeError, and AttributeError exactly for a list holding the string `SELECT` or an object with both `LIMIT` and `SELECT` keys |
| Extraction.ExtractStatement | two_model_approach.py:119-135 | nothing is looked up exactly when the reply does not parse; a parsed reply yields the statement lookup of the parsed value, so a non-empty `SQL` string is found; a found statement is the non-empty `SQL` string of the parsed reply; "no statement" means the parsed reply holds no non-empty `SQL` string |
| Extraction.ReplyInProse | two_model_approach.py:119-126 | a JSON reply surrounded by prose without braces parses to the same value as the bare JSON |
| Extraction.QueryDocumentStatement | two_model_approach.py:131-135 | from `{"query": [{"SQL": s}]}` the statement comes back exactly as `s`, and an empty `s` counts as no statement |
| Dicts.Get | two_model_approach.py:53 | reading key `k` of a dict built here (`dict(zip(...))` rows, the column-type mapping, the schema document): absent exactly when `k` is not a key, otherwise the value stored under it; it is the lookup the row and schema contracts are stated with |
| Dicts.Put | two_model_approach.py:56 | `d[k] = v`: `k` maps to `v`; other keys are unchanged; an existing key keeps its place and a new key goes last; distinct keys stay distinct |
| Dicts.FirstKeys | two_model_approach.py:46 | the key order of a dict built by assignment: each key once, in the order of its first occurrence, and no other key |
| Dicts.FromPairs | two_model_approach.py:46 | `dict(pairs)`, a dict comprehension assigning each pair in turn: distinct keys, each mapped to the value of its last pair, and no more entries than pairs |
| Dicts.FromPairsKeys | two_model_approach.py:46 | the keys of `dict(pairs)` are the pairs' keys in the order of their first occurrence: a repeated key keeps its first place and only its value is replaced |
| Dicts.FromPairsLookup | two_model_approach.py:46 | in `dict(pairs)` a key maps to the value of its last pair; a key no pair carries is absent |
| Dicts.Zip | two_model_approach.py:53 | `zip(keys, values)` stops at the shorter of its two inputs, and its i-th pair is `(keys[i], values[i])` |
| Dicts.ZipToDict | two_model_approach.py:53 | `dict(zip(keys, values))` has distinct keys, no more entries than either input, and its keys are the paired keys in the order of their first occurrence |
| Dicts.ZipToDictLookup | two_model_approach.py:53 | in `dict(zip(keys, values))` a key maps to the value beside its last paired occurrence; keys beyond the shorter input are absent |
| Dicts.FromDistinctPairs | two_model_approach.py:46 | `dict(pairs)` of pairs with distinct keys is those pairs in the same order |
| Dicts.PutNewKeyAppends | two_model_approach.py:56 | inserting a new key appends it last |
| Dicts.ZipDistinctKeys | two_model_approach.py:53 | with distinct keys and enough values, `dict(zip(keys, values))` has exactly the keys in order, each beside the value at its position |
| Dicts.LastValueAt | two_model_approach.py:46 | the last pair for a key determines its value |
| Dicts.LastValueAbsent | two_model_approach.py:46 | a key with no pair has no value |
| Rows.ShapeRows | two_model_approach.py:155-156 | one row per fetched tuple, in fetch order; each row's keys are the paired labels in the order of their first occurrence (a repeated label, as from a join, keeps its first place); each label maps to the value beside its last paired occurrence; labels beyond the tuple width are absent |
| Rows.ShapeRowsPointwise | two_model_approach.py:51-53 | rows built one tuple at a time, each `dict(zip(labels, tuple))` in fetch order, are exactly the shaped rows |
| Rows.ShapedRowsFollowLabels | two_model_approach.py:155-156 | with distinct labels and full-width tuples, each row's keys are exactly the labels, in order, each beside the value at its position |
| Rows.BlobFoundByLookup | two_model_approach.py:156-159 | the rows `json.dumps` rejects: a row holds a BLOB exactly when some key of some row looks up to one |
| Schema.ColumnTypes | two_model_approach.py:46 | the column-type mapping: each column name maps to the type of its last declaration; other names are absent |
| Schema.ColumnTypesKeys | two_model_approach.py:46 | with distinct column names the mapping's keys are the names in declaration order |
| Schema.EntryOf | two_model_approach.py:46-59 | a table's entry: its column-type mapping, and one example per sample row, each with distinct keys |
| Schema.TablePairsAppend | two_model_approach.py:56-59 | processing one more table puts its entry into the schema built so far |
| Schema.SchemaOf | two_model_approach.py:43-59 | the schema document has distinct table names and at most one entry per table |
| Schema.SampleRows | two_model_approach.py:51-53 | the inner loop appending one example per sampled tuple builds exactly the shaped rows of the samples under the column names |
| Schema.SchemaWithSamples | two_model_approach.py:43-59 | the loops over tables and sample rows build exactly the schema document `SchemaOf(tables)` |
| Schema.SchemaEntries | two_model_approach.py:43-59 | the schema document has distinct table names; each maps to the entry of the last table with that name; other names are absent |
| Schema.ExamplesFollowColumns | two_model_approach.py:51-53 | with distinct column names and full-width samples, there is one example per sample row and each example's keys are the column names in order, beside the sampled values |
| Chatbot.Respond | two_model_approach.py:148-162 | an OperationalError returns `({}, message)` with the message verbatim; other database errors escape; a fetch without column labels raises TypeError; a fetch with labels returns (summary of the shaped rows and statement, shaped rows), unless a row holds a BLOB, which raises TypeError; conversely a returned summary always comes from such a fetch |
| Chatbot.HandleRequest | two_model_approach.py:119-162 | an unparsable reply returns `({}, "Could not extract valid JSON from the response.")`; no statement returns `({}, "No SQL query found in the response.")`; an exception while reading the statement escapes; in these cases nothing is executed; a statement is executed exactly when one is found, it is the guarded statement, which contains `LIMIT`, and the outcome is that of executing it; errors come back as (empty mapping, message) and success as (summary, rows); an error message is one of the two fixed texts or the database's own text |
| Chatbot.ProseAroundReplyIgnored | two_model_approach.py:119-145 | a reply holding the documented JSON amid prose without braces is handled like the bare JSON, and runs the guarded statement |
| Chatbot.PlainSelectRequest | two_model_approach.py:119-145 | a reply asking for `SELECT` + rest with no `LIMIT` executes `SELECT DISTINCT` + rest + ` LIMIT 50` |
| Chatbot.SuccessRowsFollowLabels | two_model_approach.py:155-156 | on success there is one returned row per fetched tuple; with distinct labels and full-width tuples each row's keys are the store's column labels in order |

## Left out

- The two language-model calls, their configuration and prompt construction (two_model_approach.py:10-36, 65, 71-115). The model's reply is the input `reply`. The summary is the parameter `summarize`, applied to the shaped rows and the executed statement. The user's request and the schema document are fixed for one request.
- `Chatbot.HandleRequest`: a failure inside the summarising model is not modelled, because `summarize` is total. In the code such an exception would escape.
- sqlite access (two_model_approach.py:7-8, 42, 45, 50, 149-150): connecting, the introspection queries, the `LIMIT 3` sampling, `execute` and `fetchall`. These are I/O. Tables, column information, sample tuples, column labels and fetched tuples are inputs, and `execute` is a parameter.
- The shared global cursor opened with `check_same_thread=False`. This is a concurrency concern.
- `json.loads` and `json.dumps` internals. These are library code. `decode` is a parameter. For `json.dumps`, the model only says that a BLOB value makes serialisation raise TypeError.
- Floating-point values. SQL REAL is a Dafny `real`. JSON numbers are a decimal mantissa and exponent. NaN and infinities are not modelled.
- Duplicate keys inside one JSON object. They are left to the decoder, so `Json.JObject` is a map.
- The Gradio interface, its launch, and `print` logging (two_model_approach.py:116, 137, 167-186).

=== FILE: Chatbot.dfy ===
/**
 * One request through the pipeline: extract the statement from the model's
 * reply, guard it, execute it, shape the rows, and return the pair of outputs.
 * The model's reply text, the JSON decoder, the store and the summarising model
 * are parameters.
 */
module Chatbot {
  import opened Wrappers
  import opened Strings
  import opened Json
  import opened Dicts
  import opened Rows
  import opened Extraction
  import QueryGuard

  const CouldNotExtract := "Could not extract valid JSON from the response."
  const NoStatementFound := "No SQL query found in the response."

  /** What `c.execute(q)` followed by `c.fetchall()` gives. */
  datatype ExecResult =
    | Fetched(labels: Option<seq<string>>, tuples: seq<seq<SqlValue>>)   // labels: `c.description`, absent for non-queries
    | OperationalError(message: string)
    | OtherError(kind: string, message: string)                         // any other sqlite3 exception

  /** One of the two values the handler returns. */
  datatype Output = EmptyMapping | Text(text: string) | ResultMapping(result: seq<Row>)

  /** The handler returns a pair, or an exception escapes it. */
  datatype Outcome = Returned(first: Output, second: Output) | Crashed(error: PyError)

  /** The handler's outcome, and the statement it sent to the store, if any. */
  datatype Run = Run(executed: Option<string>, outcome: Outcome)

  /**
   * The part of the handler after the statement is run: an OperationalError
   * becomes its message, other store errors escape, and on success the rows are
   * shaped, serialised for the summarising model and returned beside its summary.
   */
  function Respond(query: string, result: ExecResult, summarize: (seq<Row>, string) -> string): (o: Outcome)
    ensures result.OperationalError? ==> o == Returned(EmptyMapping, Text(result.message))
    ensures o.Returned? && o.first.Text? ==>
              result.Fetched? && result.labels.Some? && !HasBlob(ShapeRows(result.labels.value, result.tuples)) &&
              o.second == ResultMapping(ShapeRows(result.labels.value, result.tuples)) &&
              o.first.text == summarize(o.second.result, query)
    ensures o.Returned? ==> o.first.Text? || result.OperationalError?
    ensures result.OtherError? ==> o == Crashed(DatabaseError(result.kind, result.message))
    ensures result.Fetched? && result.labels.None? ==> o == Crashed(TypeError)
    ensures result.Fetched? && result.labels.Some? ==>
              var rows := ShapeRows(result.labels.value, result.tuples);
              o == if HasBlob(rows) then Crashed(TypeError)
                   else Returned(Text(summarize(rows, query)), ResultMapping(rows))
  {
    match result
    case OperationalError(message) => Returned(EmptyMapping, Text(message))
    case OtherError(kind, message) => Crashed(DatabaseError(kind, message))
    case Fetched(None, _) => Crashed(TypeError)                 // iterating over `c.description` = None
    case Fetched(Some(labels), tuples) =>
      var rows := ShapeRows(labels, tuples);
      if HasBlob(rows) then Crashed(TypeError)                  // `json.dumps` rejects bytes
      else Returned(Text(summarize(rows, query)), ResultMapping(rows))
  }

  /**
   * The request handler, from the model's reply to the returned pair. Every
   * error path returns (empty mapping, message), the success path returns
   * (summary, rows): the two positions are swapped between the cases.
   */
  function HandleRequest(reply: string, decode: string -> Option<Json>,
                         execute: string -> ExecResult,
                         summarize: (seq<Row>, string) -> string): (run: Run)
    ensures ParseReply(reply, decode).None? ==>
              run == Run(None, Returned(EmptyMapping, Text(CouldNotExtract)))
    ensures ParseReply(reply, decode).Some? && StatementOf(ParseReply(reply, decode).value).NotFound? ==>
              run == Run(None, Returned(EmptyMapping, Text(NoStatementFound)))
    ensures run.executed.Some? <==>
              ParseReply(reply, decode).Some? && StatementOf(ParseReply(reply, decode).value).Found?
    ensures run.executed.Some? ==>
              run.executed.value == QueryGuard.Guard(StatementOf(ParseReply(reply, decode).value).statement)
    ensures run.executed.Some? ==> Occurs(run.executed.value, QueryGuard.LimitKeyword)
    ensures run.executed.Some? ==>
              run.outcome == Respond(run.executed.value, execute(run.executed.value), summarize)
    ensures ParseReply(reply, decode).Some? && StatementOf(ParseReply(reply, decode).value).Raised? ==>
              run == Run(None, Crashed(StatementOf(ParseReply(reply, decode).value).error))
    ensures run.outcome.Returned? ==>
              (run.outcome.first == EmptyMapping && run.outcome.second.Text?) ||
              (run.outcome.first.Text? && run.outcome.second.ResultMapping?)
    ensures run.outcome.Returned? && run.outcome.first == EmptyMapping ==>
              run.outcome.second.text == CouldNotExtract || run.outcome.second.text == NoStatementFound ||
              (run.executed.Some? && execute(run.executed.value) == OperationalError(run.outcome.second.text))
  {
    match ExtractStatement(reply, decode)
    case None => Run(None, Returned(EmptyMapping, Text(CouldNotExtract)))
    case Some(NotFound) => Run(None, Returned(EmptyMapping, Text(NoStatementFound)))
    case Some(Raised(e)) => Run(None, Crashed(e))
    case Some(Found(statement)) =>
      var query := QueryGuard.Guard(statement);
      Run(Some(query), Respond(query, execute(query), summarize))
  }

  /**
   * A reply holding `{"query": [{"SQL": s}]}` amid prose without braces runs
   * the guarded `s`, exactly as if the prose were absent.
   */
  lemma ProseAroundReplyIgnored(prefix: string, body: string, suffix: string, s: string,
                                decode: string -> Option<Json>, execute: string -> ExecResult,
                                summarize: (seq<Row>, string) -> string)
    requires '{' !in prefix && '}' !in suffix && s != []
    requires |body| >= 2 && body[0] == '{' && body[|body| - 1] == '}'
    requires decode(body) == Some(QueryDocument(s))
    requires decode(prefix + body + suffix).None? || decode(prefix + body + suffix) == Some(QueryDocument(s))
    ensures HandleRequest(prefix + body + suffix, decode, execute, summarize)
            == HandleRequest(body, decode, execute, summarize)
    ensures HandleRequest(body, decode, execute, summarize).executed == Some(QueryGuard.Guard(s))
  {
    ReplyInProse(prefix, body, suffix, decode, QueryDocument(s));
    QueryDocumentStatement(s);
  }

  /**
   * "Show me all departments": a reply asking for `SELECT` + `rest` with no
   * `LIMIT` runs `SELECT DISTINCT` + `rest` + ` LIMIT 50`.
   */
  lemma PlainSelectRequest(reply: string, rest: string, decode: string -> Option<Json>,
                           execute: string -> ExecResult, summarize: (seq<Row>, string) -> string)
    requires decode(reply) == Some(QueryDocument(QueryGuard.SelectKeyword + rest))
    requires !Occurs(QueryGuard.SelectKeyword + rest, QueryGuard.LimitKeyword)
    ensures HandleRequest(reply, decode, execute, summarize).executed
            == Some(QueryGuard.SelectDistinct + rest + QueryGuard.LimitClause)
  {
    QueryDocumentStatement(QueryGuard.SelectKeyword + rest);
    QueryGuard.PlainSelectGuarded(QueryGuard.SelectKeyword + rest, rest);
  }

  /**
   * On success the returned rows are one per fetched tuple, in fetch order; with
   * distinct labels and full-width tuples each row's keys are exactly the
   * store's column labels, in the same order.
   */
  lemma SuccessRowsFollowLabels(reply: string, decode: string -> Option<Json>,
                                execute: string -> ExecResult, summarize: (seq<Row>, string) -> string)
    requires HandleRequest(reply, decode, execute, summarize).outcome.Returned?
    requires HandleRequest(reply, decode, execute, summarize).outcome.first.Text?
    ensures var run := HandleRequest(reply, decode, execute, summarize);
            var fetched := execute(run.executed.value);
            && fetched.Fetched? && fetched.labels.Some?
            && |run.outcome.second.result| == |fetched.tuples|
            && (Distinct(fetched.labels.value) &&
                (forall i :: 0 <= i < |fetched.tuples| ==> |fetched.labels.value| <= |fetched.tuples[i]|)
                ==> forall i :: 0 <= i < |fetched.tuples| ==>
                      Keys(run.outcome.second.result[i]) == fetched.labels.value)
  {
    var run := HandleRequest(reply, decode, execute, summarize);
    var fetched := execute(run.executed.value);
    if Distinct(fetched.labels.value) &&
       (forall i :: 0 <= i < |fetched.tuples| ==> |fetched.labels.value| <= |fetched.tuples[i]|) {
      ShapedRowsFollowLabels(fetched.labels.value, fetched.tuples);
    }
  }
}

=== FILE: Dicts.dfy ===
/**
 * A Python `dict` with string keys, as the core builds them: an insertion-ordered
 * list of entries. Assigning to a key that is already present replaces its value
 * in place; assigning to a new key appends an entry at the end. `dict(pairs)`
 * performs these assignments from left to right.
 */
module Dicts {
  import opened Wrappers

  type Dict<V> = seq<(string, V)>

  /** The keys of `d`, in insertion order (Python's `d.keys()`). */
  function Keys<V>(d: Dict<V>): seq<string>
  {
    seq(|d|, i requires 0 <= i < |d| => d[i].0)
  }

  /** No string occurs twice in `s`. */
  predicate Distinct(s: seq<string>)
  {
    forall i, j :: 0 <= i < j < |s| ==> s[i] != s[j]
  }

  /** The position of the first entry of `d` at or after `from` whose key is `k`. */
  function KeyIndexFrom<V>(d: Dict<V>, k: string, from: nat): (r: Option<nat>)
    requires from <= |d|
    decreases |d| - from
    ensures r.Some? ==> from <= r.value < |d| && d[r.value].0 == k
    ensures r.Some? ==> forall j :: from <= j < r.value ==> d[j].0 != k
    ensures r.None? ==> forall j :: from <= j < |d| ==> d[j].0 != k
  {
    if from == |d| then None
    else if d[from].0 == k then Some(from)
    else KeyIndexFrom(d, k, from + 1)
  }

  /** The position of the entry of `d` whose key is `k`, if there is one. */
  function KeyIndex<V>(d: Dict<V>, k: string): (r: Option<nat>)
    ensures r.Some? ==> r.value < |d| && d[r.value].0 == k
    ensures r.Some? ==> forall j :: 0 <= j < r.value ==> d[j].0 != k
    ensures r.None? <==> k !in Keys(d)
  {
    var r := KeyIndexFrom(d, k, 0);
    assert r.None? ==> forall j :: 0 <= j < |d| ==> Keys(d)[j] != k;
    assert r.Some? ==> Keys(d)[r.value] == k;
    r
  }

  /**
   * Python's `d.get(k)`: the value of the entry whose key is `k` (the first
   * such entry; in a dict built by `Put` there is only one), or nothing.
   */
  function Get<V>(d: Dict<V>, k: string): (r: Option<V>)
    ensures r.None? <==> k !in Keys(d)
    ensures forall i :: 0 <= i < |d| && d[i].0 == k && (forall j :: 0 <= j < i ==> d[j].0 != k) ==>
              r == Some(d[i].1)
  {
    match KeyIndex(d, k)
    case None => None
    case Some(i) => Some(d[i].1)
  }

  /** Python's `d[k] = v`. */
  function Put<V>(d: Dict<V>, k: string, v: V): (r: Dict<V>)
    ensures Get(r, k) == Some(v)
    ensures forall k' :: k' != k ==> Get(r, k') == Get(d, k')
    ensures Keys(r) == if k in Keys(d) then Keys(d) else Keys(d) + [k]
    ensures Distinct(Keys(d)) ==> Distinct(Keys(r))
  {
    match KeyIndex(d, k)
    case None =>
      assert Keys(d + [(k, v)]) == Keys(d) + [k];
      AppendKeepsOtherKeys(d, k, v);
      d + [(k, v)]
    case Some(i) =>
      var r := d[i := (k, v)];
      assert Keys(r) == Keys(d);
      assert forall j :: 0 <= j < i ==> r[j].0 != k;
      assert Get(r, k) == Some(r[i].1);
      UpdateKeepsOtherKeys(d, i, v);
      r
  }

  /** Replacing the value of one entry leaves every other key's lookup alone. */
  lemma UpdateKeepsOtherKeys<V>(d: Dict<V>, i: nat, v: V)
    requires i < |d|
    ensures forall k' :: k' != d[i].0 ==> Get(d[i := (d[i].0, v)], k') == Get(d, k')
  {
    var r := d[i := (d[i].0, v)];
    assert Keys(r) == Keys(d);
    forall k' | k' != d[i].0 ensures Get(r, k') == Get(d, k') {
      var j := KeyIndex(d, k');
      if j.Some? {
        assert r[j.value] == d[j.value];
        assert forall m :: 0 <= m < j.value ==> r[m].0 != k';
      }
    }
  }

  /** Appending an entry leaves every other key's lookup alone. */
  lemma AppendKeepsOtherKeys<V>(d: Dict<V>, k: string, v: V)
    ensures forall k' :: k' != k ==> Get(d + [(k, v)], k') == Get(d, k')
  {
    var r := d + [(k, v)];
    assert Keys(r) == Keys(d) + [k];
    forall k' | k' != k ensures Get(r, k') == Get(d, k') {
      var j := KeyIndex(d, k');
      if j.Some? {
        assert r[j.value] == d[j.value];
        assert forall m :: 0 <= m < j.value ==> r[m].0 != k';
      }
    }
  }

  /** The value of the last pair in `ps` whose key is `k`. */
  function LastValue<V>(ps: seq<(string, V)>, k: string): Option<V>
  {
    if ps == [] then None
    else if ps[|ps| - 1].0 == k then Some(ps[|ps| - 1].1)
    else LastValue(ps[..|ps| - 1], k)
  }

  /** Each key of `ks` once, in the order of its first occurrence. */
  function FirstKeys(ks: seq<string>): (r: seq<string>)
    ensures Distinct(r)
    ensures forall k :: k in r <==> k in ks
  {
    if ks == [] then []
    else
      var init := FirstKeys(ks[..|ks| - 1]);
      assert forall k :: k in ks <==> k in ks[..|ks| - 1] || k == ks[|ks| - 1] by {
        assert ks == ks[..|ks| - 1] + [ks[|ks| - 1]];
      }
      if ks[|ks| - 1] in init then init else init + [ks[|ks| - 1]]
  }

  /**
   * Python's `dict(ps)`: each pair in turn assigned into an empty dict. A key
   * stays where it first appeared; a later pair only replaces its value.
   */
  function FromPairs<V>(ps: seq<(string, V)>): (r: Dict<V>)
    ensures Distinct(Keys(r))
    ensures forall k :: Get(r, k) == LastValue(ps, k)
    ensures |r| <= |ps|
  {
    if ps == [] then []
    else
      var last := ps[|ps| - 1];
      Put(FromPairs(ps[..|ps| - 1]), last.0, last.1)
  }

  /** The keys of all pairs but the last, and the key of the last. */
  lemma KeysOfInit<V>(ps: seq<(string, V)>)
    requires ps != []
    ensures Keys(ps[..|ps| - 1]) == Keys(ps)[..|ps| - 1]
    ensures Keys(ps)[|ps| - 1] == ps[|ps| - 1].0
  {
  }

  /** Adding a key at the end adds it to the first-occurrence order unless seen. */
  lemma FirstKeysSnoc(ks: seq<string>)
    requires ks != []
    ensures FirstKeys(ks) ==
      var before := FirstKeys(ks[..|ks| - 1]);
      if ks[|ks| - 1] in before then before else before + [ks[|ks| - 1]]
  {
  }

  /**
   * The keys of `dict(ps)` are the keys of `ps` in the order of their first
   * occurrence: a repeated key keeps its place and only its value changes.
   */
  lemma {:induction false} FromPairsKeys<V>(ps: seq<(string, V)>)
    ensures Keys(FromPairs(ps)) == FirstKeys(Keys(ps))
  {
    if ps != [] {
      var init := ps[..|ps| - 1];
      FromPairsKeys(init);
      KeysOfInit(ps);
      FirstKeysSnoc(Keys(ps));
    }
  }

  /** Python's `zip(keys, values)`: it stops at the shorter of the two. */
  function Zip<V>(keys: seq<string>, values: seq<V>): (ps: seq<(string, V)>)
    ensures |ps| == if |keys| <= |values| then |keys| else |values|
    ensures forall i :: 0 <= i < |ps| ==> ps[i] == (keys[i], values[i])
  {
    seq(if |keys| <= |values| then |keys| else |values|,
        i requires 0 <= i < |keys| && i < |values| => (keys[i], values[i]))
  }

  /**
   * Python's `dict(zip(keys, values))`: the paired keys, each once, in the
   * order of their first occurrence.
   */
  function ZipToDict<V>(keys: seq<string>, values: seq<V>): (d: Dict<V>)
    ensures Distinct(Keys(d))
    ensures |d| <= |keys| && |d| <= |values|
    ensures Keys(d) == FirstKeys(keys[..if |keys| <= |values| then |keys| else |values|])
  {
    assert Keys(Zip(keys, values)) == keys[..if |keys| <= |values| then |keys| else |values|];
    FromPairsKeys(Zip(keys, values));
    FromPairs(Zip(keys, values))
  }

  /** The last pair carrying a key decides the value stored under it. */
  lemma {:induction false} LastValueAt<V>(ps: seq<(string, V)>, i: nat)
    requires i < |ps|
    requires forall j :: i < j < |ps| ==> ps[j].0 != ps[i].0
    ensures LastValue(ps, ps[i].0) == Some(ps[i].1)
  {
    if i < |ps| - 1 {
      LastValueAt(ps[..|ps| - 1], i);
    }
  }

  /** A key that no pair carries is absent. */
  lemma {:induction false} LastValueAbsent<V>(ps: seq<(string, V)>, k: string)
    requires forall j :: 0 <= j < |ps| ==> ps[j].0 != k
    ensures LastValue(ps, k) == None
  {
    if ps != [] {
      LastValueAbsent(ps[..|ps| - 1], k);
    }
  }

  /**
   * The dict built by `dict(ps)`: a key maps to the value of its last pair,
   * and a key that no pair carries is absent.
   */
  lemma FromPairsLookup<V>(ps: seq<(string, V)>)
    ensures forall i :: 0 <= i < |ps| && (forall j :: i < j < |ps| ==> ps[j].0 != ps[i].0)
              ==> Get(FromPairs(ps), ps[i].0) == Some(ps[i].1)
    ensures forall k :: (forall j :: 0 <= j < |ps| ==> ps[j].0 != k) ==> Get(FromPairs(ps), k) == None
  {
    forall i | 0 <= i < |ps| && (forall j :: i < j < |ps| ==> ps[j].0 != ps[i].0)
      ensures Get(FromPairs(ps), ps[i].0) == Some(ps[i].1)
    {
      LastValueAt(ps, i);
    }
    forall k | (forall j :: 0 <= j < |ps| ==> ps[j].0 != k)
      ensures Get(FromPairs(ps), k) == None
    {
      LastValueAbsent(ps, k);
    }
  }

  /**
   * The dict built by `dict(zip(keys, values))`: pairing stops at the shorter
   * input, a key maps to the value beside its LAST occurrence among the paired
   * keys, and no other key is present.
   */
  lemma ZipToDictLookup<V>(keys: seq<string>, values: seq<V>)
    ensures Distinct(Keys(ZipToDict(keys, values)))
    ensures forall i :: 0 <= i < |keys| && i < |values| &&
              (forall j :: i < j < |keys| && j < |values| ==> keys[j] != keys[i])
              ==> Get(ZipToDict(keys, values), keys[i]) == Some(values[i])
    ensures forall k :: (forall j :: 0 <= j < |keys| && j < |values| ==> keys[j] != k) ==>
              Get(ZipToDict(keys, values), k) == None
  {
    var ps := Zip(keys, values);
    forall i | 0 <= i < |keys| && i < |values| &&
               (forall j :: i < j < |keys| && j < |values| ==> keys[j] != keys[i])
      ensures Get(ZipToDict(keys, values), keys[i]) == Some(values[i])
    {
      LastValueAt(ps, i);
    }
    forall k | (forall j :: 0 <= j < |keys| && j < |values| ==> keys[j] != k)
      ensures Get(ZipToDict(keys, values), k) == None
    {
      LastValueAbsent(ps, k);
    }
  }

  /** When no key repeats, `dict(ps)` keeps every pair, in order. */
  lemma {:induction false} FromDistinctPairs<V>(ps: seq<(string, V)>)
    requires Distinct(Keys(ps))
    ensures FromPairs(ps) == ps
  {
    if ps != [] {
      var init, last := ps[..|ps| - 1], ps[|ps| - 1];
      assert ps == init + [last];
      DistinctInitKeys(ps);
      FromDistinctPairs(init);
      calc {
        FromPairs(ps);
        Put(FromPairs(init), last.0, last.1);
        Put(init, last.0, last.1);
        { PutNewKeyAppends(init, last.0, last.1); }
        init + [last];
        ps;
      }
    }
  }

  /** With distinct keys, the pairs before the last have distinct keys, none of them the last key. */
  lemma DistinctInitKeys<V>(ps: seq<(string, V)>)
    requires ps != [] && Distinct(Keys(ps))
    ensures Distinct(Keys(ps[..|ps| - 1]))
    ensures ps[|ps| - 1].0 !in Keys(ps[..|ps| - 1])
  {
    var init := ps[..|ps| - 1];
    KeysOfInit(ps);
    forall j | 0 <= j < |init| ensures Keys(init)[j] != ps[|ps| - 1].0 {
      assert Keys(init)[j] == Keys(ps)[j];
    }
  }

  /** Assigning a key that is not yet present appends one entry. */
  lemma PutNewKeyAppends<V>(d: Dict<V>, k: string, v: V)
    requires k !in Keys(d)
    ensures Put(d, k, v) == d + [(k, v)]
  {
  }

  /**
   * `dict(zip(keys, values))` over distinct keys and at least as many values:
   * its keys are exactly `keys`, in the same order, each beside its own value.
   */
  lemma ZipDistinctKeys<V>(keys: seq<string>, values: seq<V>)
    requires Distinct(keys) && |keys| <= |values|
    ensures Keys(ZipToDict(keys, values)) == keys
    ensures forall i :: 0 <= i < |keys| ==> ZipToDict(keys, values)[i] == (keys[i], values[i])
  {
    var ps := Zip(keys, values);
    assert Keys(ps) == keys;
    FromDistinctPairs(ps);
  }
}

=== FILE: Extraction.dfy ===
/**
 * Getting the SQL statement out of the model's reply: a strict JSON decode of
 * the whole text, then of the text from the first `{` to the last `}`, then the
 * `SQL` field of the first element of the `query` array. The JSON decoder is a
 * parameter (`decode`), a partial function from text to a JSON value.
 */
module Extraction {
  import opened Wrappers
  import opened Strings
  import opened Json
  import QueryGuard

  /** The uncaught Python exceptions the pipeline can end in. */
  datatype PyError =
    | IndexError
    | KeyError
    | TypeError
    | AttributeError
    | DatabaseError(kind: string, message: string)   // a sqlite3 error other than OperationalError

  /** What the reply yields: a statement, no usable statement, or an uncaught exception. */
  datatype Lookup = Found(statement: string) | NotFound | Raised(error: PyError)

  /**
   * The two-tier parse. Only when the whole reply fails to decode is a second
   * text tried, and that text is exactly the slice from the first `{` through the
   * last `}` (Python's slice, empty when the last `}` comes before the first `{`).
   * A reply without one of the two braces fails.
   */
  function ParseReply(reply: string, decode: string -> Option<Json>): (r: Option<Json>)
    ensures decode(reply).Some? ==> r == decode(reply)
    ensures decode(reply).None? && ('{' !in reply || '}' !in reply) ==> r == None
    ensures decode(reply).None? ==>
              forall a, b :: FirstIndex(reply, '{', a) && LastIndex(reply, '}', b) ==>
                r == decode(if a <= b then reply[a..b + 1] else [])
  {
    match decode(reply)
    case Some(doc) => Some(doc)
    case None =>
      match (IndexOf(reply, '{'), LastIndexOf(reply, '}'))
      case (Some(start), Some(last)) =>
        assert forall a :: FirstIndex(reply, '{', a) ==> a == start;
        assert forall b :: LastIndex(reply, '}', b) ==> b == last;
        decode(if start <= last then reply[start..last + 1] else [])
      case _ => None
  }

  /**
   * Python's `v[0]` on a decoded value: the first element of a list, the first
   * character of a string, and an exception for everything else.
   */
  function Subscript0(v: Json): (r: Result<Json, PyError>)
    ensures v.JArray? && v.items != [] ==> r == Ok(v.items[0])
    ensures r.Ok? ==> (v.JArray? && v.items != []) || (v.JString? && v.s != [] && r.value == JString(v.s[..1]))
    ensures (v.JArray? && v.items == []) || (v.JString? && v.s == []) ==> r == Err(IndexError)
    ensures v.JObject? ==> r == Err(KeyError)
    ensures !v.JArray? && !v.JString? && !v.JObject? ==> r == Err(TypeError)
  {
    match v
    case JArray(items) => if items == [] then Err(IndexError) else Ok(items[0])
    case JString(s) => if s == [] then Err(IndexError) else Ok(JString(s[..1]))
    case JObject(_) => Err(KeyError)   // object keys are strings, never the integer 0
    case _ => Err(TypeError)
  }

  /**
   * Python's `needle in v` on a decoded value that is not a string: membership
   * for a list, a key test for an object, and TypeError for anything else.
   */
  function ContainsTest(v: Json, needle: string): Result<bool, PyError>
    requires !v.JString?
  {
    match v
    case JArray(items) => Ok(JString(needle) in items)
    case JObject(fields) => Ok(needle in fields)
    case _ => Err(TypeError)
  }

  /** The one-character strings of `s`, as `list += s` appends them. */
  function Characters(s: string): (cs: seq<Json>)
    ensures |cs| == |s|
    ensures forall x :: x in cs ==> x.JString? && |x.s| == 1
  {
    seq(|s|, i requires 0 <= i < |s| => JString([s[i]]))
  }

  /** Python's `v += suffix` on a value that is not a string: a list is extended by the characters. */
  function AppendText(v: Json, suffix: string): Result<Json, PyError>
    requires !v.JString?
  {
    match v
    case JArray(items) => Ok(JArray(items + Characters(suffix)))
    case _ => Err(TypeError)
  }

  /**
   * The exception the guard and the execution raise on a truthy `SQL` value
   * that is not a string, step by step in source order: the `LIMIT` test, the
   * `+=` of the limit clause when it is missing, the `SELECT` test, then
   * `.replace` (which no list or object has) or else `execute` (which takes
   * only text). A list never gains `"SELECT"` from the appended characters, so
   * AttributeError comes exactly from a list holding `"SELECT"` or an object
   * with both keys.
   */
  function NonStringStatementError(v: Json): (e: PyError)
    requires !v.JString?
    ensures e == TypeError || e == AttributeError
    ensures e == AttributeError ==> v.JArray? || v.JObject?
    ensures v.JArray? ==> (e == AttributeError <==> JString(QueryGuard.SelectKeyword) in v.items)
    ensures v.JObject? ==>
              (e == AttributeError <==> QueryGuard.LimitKeyword in v.fields && QueryGuard.SelectKeyword in v.fields)
  {
    assert JString(QueryGuard.SelectKeyword) !in Characters(QueryGuard.LimitClause);
    match ContainsTest(v, QueryGuard.LimitKeyword)
    case Err(e) => e
    case Ok(hasLimit) =>
      match (if hasLimit then Ok(v) else AppendText(v, QueryGuard.LimitClause))
      case Err(e) => e
      case Ok(w) =>
        match ContainsTest(w, QueryGuard.SelectKeyword)
        case Err(e) => e
        case Ok(hasSelect) => if hasSelect then AttributeError else TypeError
  }

  /** `v` is the `SQL` field of the first element of the `query` array of `doc`. */
  ghost predicate SqlFieldIs(doc: Json, v: Json)
  {
    && doc.JObject? && "query" in doc.fields
    && doc.fields["query"].JArray? && doc.fields["query"].items != []
    && doc.fields["query"].items[0].JObject?
    && "SQL" in doc.fields["query"].items[0].fields
    && doc.fields["query"].items[0].fields["SQL"] == v
  }

  /**
   * `query_json.get('query', [{}])[0].get('SQL')`, then the falsiness test.
   * A missing `query` key reads as `[{}]`, so it ends in "no statement", as do a
   * missing, null, empty or otherwise falsy `SQL` value.
   */
  function StatementOf(doc: Json): (r: Lookup)
    ensures r.Found? <==> exists s :: s != [] && SqlFieldIs(doc, JString(s))
    ensures r.Found? ==> SqlFieldIs(doc, JString(r.statement)) && r.statement != []
    ensures !doc.JObject? ==> r == Raised(AttributeError)
    ensures doc.JObject? && "query" !in doc.fields ==> r == NotFound
    ensures (exists v :: SqlFieldIs(doc, v) && !Truthy(v)) ==> r == NotFound
    ensures (doc.JObject? && "query" in doc.fields && doc.fields["query"].JArray? &&
             doc.fields["query"].items != [] && doc.fields["query"].items[0].JObject? &&
             "SQL" !in doc.fields["query"].items[0].fields)
            ==> r == NotFound
    ensures (doc.JObject? && "query" in doc.fields && doc.fields["query"].JArray? &&
             doc.fields["query"].items == [])
            ==> r == Raised(IndexError)
    ensures (doc.JObject? && "query" in doc.fields && doc.fields["query"].JArray? &&
             doc.fields["query"].items != [] && !doc.fields["query"].items[0].JObject?)
            ==> r == Raised(AttributeError)
    ensures (exists v :: SqlFieldIs(doc, v) && Truthy(v) && !v.JString?) ==>
              r.Raised? && (r.error == TypeError || r.error == AttributeError)
    ensures forall v :: SqlFieldIs(doc, v) && Truthy(v) && !v.JString? ==> r == Raised(NonStringStatementError(v))
    ensures (doc.JObject? && "query" in doc.fields && Subscript0(doc.fields["query"]).Err?)
            ==> r == Raised(Subscript0(doc.fields["query"]).error)
    ensures (doc.JObject? && "query" in doc.fields && Subscript0(doc.fields["query"]).Ok? &&
             !Subscript0(doc.fields["query"]).value.JObject?)
            ==> r == Raised(AttributeError)
  {
    if !doc.JObject? then Raised(AttributeError)
    else
      var first := if "query" in doc.fields then Subscript0(doc.fields["query"]) else Ok(JObject(map[]));
      if first.Err? then Raised(first.error)
      else if !first.value.JObject? then Raised(AttributeError)
      else
        var entry := first.value.fields;
        var sql := if "SQL" in entry then entry["SQL"] else JNull;
        if !Truthy(sql) then NotFound
        else if sql.JString? then Found(sql.s)
        else Raised(NonStringStatementError(sql))
  }

  /**
   * The statement lookup as the pipeline runs it: a reply that cannot be parsed
   * is reported before any statement is looked for.
   */
  function ExtractStatement(reply: string, decode: string -> Option<Json>): (r: Option<Lookup>)
    ensures r.None? <==> ParseReply(reply, decode).None?
    ensures r.Some? && r.value.Found? ==>
              SqlFieldIs(ParseReply(reply, decode).value, JString(r.value.statement)) && r.value.statement != []
    ensures r.Some? ==> r.value == StatementOf(ParseReply(reply, decode).value)
    ensures r.Some? && r.value.NotFound? ==>
              !exists s :: s != [] && SqlFieldIs(ParseReply(reply, decode).value, JString(s))
  {
    match ParseReply(reply, decode)
    case None => None
    case Some(doc) => Some(StatementOf(doc))
  }

  /**
   * A well-formed reply surrounded by prose without braces (the prose before it
   * has no `{`, the prose after it no `}`) yields the same value as the bare
   * JSON text, when the whole reply is not itself valid JSON.
   */
  lemma ReplyInProse(prefix: string, body: string, suffix: string,
                     decode: string -> Option<Json>, doc: Json)
    requires '{' !in prefix && '}' !in suffix
    requires |body| >= 2 && body[0] == '{' && body[|body| - 1] == '}'
    requires decode(body) == Some(doc)
    requires decode(prefix + body + suffix).None? || decode(prefix + body + suffix) == Some(doc)
    ensures ParseReply(prefix + body + suffix, decode) == Some(doc)
  {
    var reply := prefix + body + suffix;
    if decode(reply).None? {
      var a, b := |prefix|, |prefix| + |body| - 1;
      assert reply[..a] == prefix;
      assert reply[b + 1..] == suffix;
      assert FirstIndex(reply, '{', a) && LastIndex(reply, '}', b);
      assert reply[a..b + 1] == body;
    }
  }

  /** The documented reply shape `{"query": [{"SQL": s}]}`. */
  function QueryDocument(s: string): Json
  {
    JObject(map["query" := JArray([JObject(map["SQL" := JString(s)])])])
  }

  /** From the documented shape the statement comes back exactly as written. */
  lemma QueryDocumentStatement(s: string)
    ensures StatementOf(QueryDocument(s)) == if s == [] then NotFound else Found(s)
  {
    assert SqlFieldIs(QueryDocument(s), JString(s));
  }
}

=== FILE: Json.dfy ===
/**
 * The values `json.loads` produces, and the truthiness Python gives them.
 * Objects are Python dicts keyed by string; the decoder itself is not part of
 * this model, so an object is given by its key/value mapping.
 */
module Json {

  datatype Json =
    | JNull
    | JBool(b: bool)
    | JNumber(mantissa: int, exponent: int)   // mantissa * 10^exponent
    | JString(s: string)
    | JArray(items: seq<Json>)
    | JObject(fields: map<string, Json>)

  /** Python's `bool(v)`: `None`, `False`, zero and empty containers are false. */
  predicate Truthy(v: Json)
  {
    match v
    case JNull => false
    case JBool(b) => b
    case JNumber(m, _) => m != 0
    case JString(s) => s != []
    case JArray(items) => items != []
    case JObject(fields) => fields != map[]
  }
}

=== FILE: QueryGuard.dfy ===
/**
 * The textual query guard: two ordered, case-sensitive rewrites of the
 * generated SQL text before it is executed.
 *   1. Without the substring `LIMIT`, the text gets ` LIMIT 50` appended.
 *   2. The first `SELECT`, if any, becomes `SELECT DISTINCT`.
 * Neither rewrite parses SQL: lower-case keywords are not recognised, and a
 * `LIMIT` inside an identifier counts as a row limit.
 */
module QueryGuard {
  import opened Strings

  const LimitKeyword := "LIMIT"
  const LimitClause := " LIMIT 50"
  const SelectKeyword := "SELECT"
  const DistinctWord := " DISTINCT"
  const SelectDistinct := SelectKeyword + DistinctWord

  /** Step 1: bound the rows unless the text already mentions `LIMIT`. */
  function AddLimit(q: string): (r: string)
    ensures !Occurs(q, LimitKeyword) ==> r == q + LimitClause
    ensures Occurs(q, LimitKeyword) ==> r == q
  {
    if Contains(q, LimitKeyword) then q else q + LimitClause
  }

  /**
   * Step 2: make the first `SELECT` a `SELECT DISTINCT`. Text before and
   * after that occurrence is kept, and the text grows by exactly 9 characters.
   */
  function AddDistinct(q: string): (r: string)
    ensures !Occurs(q, SelectKeyword) ==> r == q
    ensures forall i :: FirstOccurrence(q, SelectKeyword, i) ==>
              && |r| == |q| + 9
              && r[..i] == q[..i]
              && r[i..i + |SelectDistinct|] == SelectDistinct
              && r[i + |SelectDistinct|..] == q[i + |SelectKeyword|..]
  {
    if Contains(q, SelectKeyword) then ReplaceFirst(q, SelectKeyword, SelectDistinct) else q
  }

  /**
   * The whole guard, in the source's order. Whatever the input, the statement
   * that reaches the store mentions `LIMIT`, and each rewrite that fires adds
   * 9 characters.
   */
  function Guard(q: string): (r: string)
    ensures Occurs(r, LimitKeyword)
    ensures |r| == |q| + (if Occurs(q, LimitKeyword) then 0 else 9) + (if Occurs(q, SelectKeyword) then 9 else 0)
  {
    var a := AddLimit(q);
    assert Occurs(a, LimitKeyword) by {
      if !Occurs(q, LimitKeyword) {
        assert a[|q| + 1..|q| + 6] == LimitKeyword;
        assert OccursAt(a, LimitKeyword, |q| + 1);
      }
    }
    AddDistinctKeepsLimit(a);
    assert Occurs(a, SelectKeyword) <==> Occurs(q, SelectKeyword) by {
      LimitClauseAddsNoSelect(q);
    }
    assert Occurs(a, SelectKeyword) ==> |AddDistinct(a)| == |a| + 9 by {
      if Occurs(a, SelectKeyword) {
        assert FirstOccurrence(a, SelectKeyword, Find(a, SelectKeyword).value);
      }
    }
    AddDistinct(a)
  }

  /** `SELECT` and `LIMIT` cannot overlap: their occurrences lie apart. */
  lemma SelectLimitApart(s: string, i: int, j: int)
    requires OccursAt(s, SelectKeyword, i) && OccursAt(s, LimitKeyword, j)
    ensures j + |LimitKeyword| <= i || i + |SelectKeyword| <= j
  {
    OccursAtChars(s, SelectKeyword, i);
    OccursAtChars(s, LimitKeyword, j);
    assert s[i] == 'S' && s[i + 1] == 'E' && s[i + 2] == 'L' && s[i + 3] == 'E';
    assert s[i + 4] == 'C' && s[i + 5] == 'T';
    assert s[j] == 'L' && s[j + 1] == 'I' && s[j + 2] == 'M' && s[j + 3] == 'I' && s[j + 4] == 'T';
  }

  /**
   * Splicing ` DISTINCT` in after a `SELECT` at `i` keeps a `LIMIT` at `j`,
   * moved 9 places to the right when it stood after the `SELECT`.
   */
  lemma SpliceKeepsLimit(q: string, r: string, i: nat, j: nat)
    requires OccursAt(q, SelectKeyword, i) && OccursAt(q, LimitKeyword, j)
    requires |r| == |q| + 9 && r[..i] == q[..i] && r[i + 15..] == q[i + 6..]
    ensures Occurs(r, LimitKeyword)
  {
    SelectLimitApart(q, i, j);
    if j + 5 <= i {
      forall p | j <= p < j + 5 ensures r[p] == q[p] {
        assert r[p] == r[..i][p];
      }
      OccursAtShift(q, r, LimitKeyword, j, 0);
    } else {
      forall p | j <= p < j + 5 ensures r[p + 9] == q[p] {
        assert r[p + 9] == r[i + 15..][p - i - 6];
        assert q[p] == q[i + 6..][p - i - 6];
      }
      OccursAtShift(q, r, LimitKeyword, j, 9);
    }
  }

  /** The DISTINCT insertion keeps every `LIMIT` of its input. */
  lemma AddDistinctKeepsLimit(q: string)
    requires Occurs(q, LimitKeyword)
    ensures Occurs(AddDistinct(q), LimitKeyword)
  {
    var j :| OccursAt(q, LimitKeyword, j);
    if Occurs(q, SelectKeyword) {
      var i := Find(q, SelectKeyword).value;
      assert FirstOccurrence(q, SelectKeyword, i);
      var r := AddDistinct(q);
      assert |r| == |q| + 9 && r[..i] == q[..i] && r[i + 15..] == q[i + 6..];
      SpliceKeepsLimit(q, r, i, j);
    }
  }

  /** The appended ` LIMIT 50` holds no `SELECT` and cannot complete one. */
  lemma LimitClauseAddsNoSelect(q: string)
    ensures forall i :: OccursAt(q + LimitClause, SelectKeyword, i) <==> OccursAt(q, SelectKeyword, i)
  {
    var a := q + LimitClause;
    assert forall p :: |q| <= p < |a| ==> a[p] == LimitClause[p - |q|];
    assert a[|q|] == ' ' && ' ' !in SelectKeyword && 'S' !in LimitClause;
    forall i | OccursAt(a, SelectKeyword, i) ensures OccursAt(q, SelectKeyword, i) {
      OccursAtChars(a, SelectKeyword, i);
      assert a[i] == 'S';
      assert i + 6 <= |q|;
      assert a[i..i + 6] == q[i..i + 6];
    }
    forall i | OccursAt(q, SelectKeyword, i) ensures OccursAt(a, SelectKeyword, i) {
      assert a[i..i + 6] == q[i..i + 6];
    }
  }

  /**
   * Without `LIMIT`, the guard is the DISTINCT rewrite of the statement
   * followed by ` LIMIT 50`: the clause always ends up last.
   */
  lemma GuardWithoutLimit(q: string)
    requires !Occurs(q, LimitKeyword)
    ensures Guard(q) == AddDistinct(q) + LimitClause
  {
    var a := q + LimitClause;
    LimitClauseAddsNoSelect(q);
    if Occurs(q, SelectKeyword) {
      var i := Find(q, SelectKeyword).value;
      assert FirstOccurrence(a, SelectKeyword, i);
      assert a[..i] == q[..i];
      assert a[i + 6..] == q[i + 6..] + LimitClause;
      calc {
        Guard(q);
        ReplaceFirst(a, SelectKeyword, SelectDistinct);
        a[..i] + SelectDistinct + a[i + 6..];
        q[..i] + SelectDistinct + (q[i + 6..] + LimitClause);
        (q[..i] + SelectDistinct + q[i + 6..]) + LimitClause;
        ReplaceFirst(q, SelectKeyword, SelectDistinct) + LimitClause;
      }
    } else {
      assert !Occurs(a, SelectKeyword);
    }
  }

  /** `SELECT` survives the guard: the DISTINCT form still contains it. */
  lemma GuardKeepsSelect(q: string)
    ensures Occurs(Guard(q), SelectKeyword) <==> Occurs(q, SelectKeyword)
  {
    var a := AddLimit(q);
    if a != q {
      LimitClauseAddsNoSelect(q);
    }
    assert Occurs(a, SelectKeyword) <==> Occurs(q, SelectKeyword);
    if Occurs(a, SelectKeyword) {
      var i := Find(a, SelectKeyword).value;
      var r := Guard(q);
      assert r[i..i + 6] == r[i..i + 15][..6];
      assert OccursAt(r, SelectKeyword, i);
    }
  }

  /**
   * The guard is not idempotent. A second pass never appends another row
   * limit, but it inserts a second ` DISTINCT` exactly when the statement
   * contains `SELECT`.
   */
  lemma GuardTwice(q: string)
    ensures AddLimit(Guard(q)) == Guard(q)
    ensures Guard(Guard(q)) == Guard(q) <==> !Occurs(q, SelectKeyword)
    ensures Occurs(q, SelectKeyword) ==> |Guard(Guard(q))| == |Guard(q)| + 9
  {
    var g := Guard(q);
    GuardKeepsSelect(q);
    assert Guard(g) == AddDistinct(g);
  }

  /** A statement that starts with `SELECT` has that very `SELECT` rewritten. */
  lemma AddDistinctAtStart(q: string)
    requires |q| >= 6 && q[..6] == SelectKeyword
    ensures AddDistinct(q) == SelectDistinct + q[6..]
  {
    assert OccursAt(q, SelectKeyword, 0) && FirstOccurrence(q, SelectKeyword, 0);
    var r := AddDistinct(q);
    assert r == r[..15] + r[15..];
  }

  /**
   * "Show me all departments" style statements, `SELECT` followed by `rest`
   * without any `LIMIT`, come out as `SELECT DISTINCT rest LIMIT 50`.
   */
  lemma PlainSelectGuarded(q: string, rest: string)
    requires q == SelectKeyword + rest && !Occurs(q, LimitKeyword)
    ensures Guard(q) == SelectDistinct + rest + LimitClause
  {
    GuardWithoutLimit(q);
    AddDistinctAtStart(q);
    assert q[6..] == rest;
  }

  /** A statement that starts with `SELECT` and has a `LIMIT` is only made DISTINCT. */
  lemma GuardOfLimitedSelect(g: string, tail: string)
    requires g == SelectKeyword + tail && Occurs(g, LimitKeyword)
    ensures Guard(g) == SelectDistinct + tail
  {
    assert g[..6] == SelectKeyword && g[6..] == tail;
    AddDistinctAtStart(g);
  }

  /** Guarding such a statement twice inserts a second ` DISTINCT`. */
  lemma PlainSelectGuardedTwice(q: string, rest: string)
    requires q == SelectKeyword + rest && !Occurs(q, LimitKeyword)
    ensures Guard(Guard(q)) == SelectDistinct + DistinctWord + rest + LimitClause
  {
    var tail := DistinctWord + rest + LimitClause;
    PlainSelectGuarded(q, rest);
    Regroup(SelectKeyword, DistinctWord, rest, LimitClause);
    GuardOfLimitedSelect(Guard(q), tail);
    Regroup(SelectDistinct, DistinctWord, rest, LimitClause);
  }

  /**
   * Regrouping a four-part concatenation. Stated once as a lemma, it lets the
   * proofs above relate the two groupings without the solver searching through
   * concatenation laws on its own.
   */
  lemma Regroup(a: string, b: string, c: string, d: string)
    ensures a + (b + c + d) == a + b + c + d
  {
  }

  /**
   * The tests are case-sensitive: a statement without upper-case letters (say
   * `select name from employees limit 10`) gets ` LIMIT 50` appended even when it
   * has its own lower-case limit, and its `select` is not rewritten.
   */
  lemma LowercaseStatementGuard(q: string)
    requires forall k :: 0 <= k < |q| ==> !('A' <= q[k] <= 'Z')
    ensures Guard(q) == q + LimitClause
  {
    assert LimitKeyword[0] == 'L' && 'L' !in q;
    MissingCharacterRulesOut(q, LimitKeyword, 0);
    var a := q + LimitClause;
    assert SelectKeyword[0] == 'S' && 'S' !in a;
    MissingCharacterRulesOut(a, SelectKeyword, 0);
  }
}

=== FILE: Rows.dfy ===
/**
 * Turning fetched tuples into rows keyed by column label:
 * `dict(zip(labels, row))` for each fetched tuple, in fetch order.
 */
module Rows {
  import opened Wrappers
  import opened Dicts

  /** The values sqlite hands back: NULL, INTEGER, REAL, TEXT and BLOB. */
  datatype SqlValue =
    | SqlNull
    | SqlInteger(i: int)
    | SqlReal(x: real)
    | SqlText(t: string)
    | SqlBlob(bytes: seq<bv8>)

  /** One result row: column label to value, in label order. */
  type Row = Dict<SqlValue>

  /**
   * One row per fetched tuple, in fetch order. In each row a label maps to the
   * value beside its last occurrence among the paired positions (pairing stops
   * at the shorter of labels and tuple), and no other label is present.
   */
  function ShapeRows(labels: seq<string>, tuples: seq<seq<SqlValue>>): (rows: seq<Row>)
    ensures |rows| == |tuples|
    ensures forall i :: 0 <= i < |tuples| ==> Distinct(Keys(rows[i]))
    ensures forall i :: 0 <= i < |tuples| ==>
              Keys(rows[i]) == FirstKeys(labels[..if |labels| <= |tuples[i]| then |labels| else |tuples[i]|])
    ensures forall i, c :: 0 <= i < |tuples| && 0 <= c < |labels| && c < |tuples[i]| &&
              (forall d :: c < d < |labels| && d < |tuples[i]| ==> labels[d] != labels[c])
              ==> Get(rows[i], labels[c]) == Some(tuples[i][c])
    ensures forall i, k :: 0 <= i < |tuples| &&
              (forall d :: 0 <= d < |labels| && d < |tuples[i]| ==> labels[d] != k)
              ==> Get(rows[i], k) == None
  {
    var rows := seq(|tuples|, i requires 0 <= i < |tuples| => ZipToDict(labels, tuples[i]));
    assert forall i :: 0 <= i < |tuples| ==> rows[i] == ZipToDict(labels, tuples[i]);
    forall i | 0 <= i < |tuples| {
      ZipToDictLookup(labels, tuples[i]);
    }
    rows
  }

  /** Rows built one tuple at a time, in fetch order, are the shaped rows. */
  lemma ShapeRowsPointwise(labels: seq<string>, tuples: seq<seq<SqlValue>>, rows: seq<Row>)
    requires |rows| == |tuples|
    requires forall i :: 0 <= i < |tuples| ==> rows[i] == ZipToDict(labels, tuples[i])
    ensures rows == ShapeRows(labels, tuples)
  {
    var shaped := ShapeRows(labels, tuples);
    forall i | 0 <= i < |tuples| ensures rows[i] == shaped[i] {
    }
  }

  /**
   * With distinct labels and full-width tuples, every row has exactly the
   * labels as its keys, in the same order, each beside the value at its position.
   */
  lemma ShapedRowsFollowLabels(labels: seq<string>, tuples: seq<seq<SqlValue>>)
    requires Distinct(labels)
    requires forall i :: 0 <= i < |tuples| ==> |labels| <= |tuples[i]|
    ensures forall i :: 0 <= i < |tuples| ==> Keys(ShapeRows(labels, tuples)[i]) == labels
    ensures forall i, c :: 0 <= i < |tuples| && 0 <= c < |labels| ==>
              ShapeRows(labels, tuples)[i][c] == (labels[c], tuples[i][c])
  {
    var rows := ShapeRows(labels, tuples);
    forall i | 0 <= i < |tuples|
      ensures Keys(rows[i]) == labels
      ensures forall c :: 0 <= c < |labels| ==> rows[i][c] == (labels[c], tuples[i][c])
    {
      ZipDistinctKeys(labels, tuples[i]);
    }
  }

  /** Some value of the rows is a BLOB, which `json.dumps` cannot serialise. */
  predicate HasBlob(rows: seq<Row>)
  {
    exists i, c :: 0 <= i < |rows| && 0 <= c < |rows[i]| && rows[i][c].1.SqlBlob?
  }

  /**
   * In rows whose keys are distinct, as every Python dict's are, a BLOB is
   * present exactly when looking some key up in some row yields one.
   */
  lemma BlobFoundByLookup(rows: seq<Row>)
    requires forall i :: 0 <= i < |rows| ==> Distinct(Keys(rows[i]))
    ensures HasBlob(rows) <==>
              exists i, k :: 0 <= i < |rows| && Get(rows[i], k).Some? && Get(rows[i], k).value.SqlBlob?
  {
    if HasBlob(rows) {
      var i, c :| 0 <= i < |rows| && 0 <= c < |rows[i]| && rows[i][c].1.SqlBlob?;
      var k := rows[i][c].0;
      forall j | 0 <= j < c ensures rows[i][j].0 != k {
        assert Keys(rows[i])[j] == rows[i][j].0 && Keys(rows[i])[c] == k;
      }
      assert Get(rows[i], k) == Some(rows[i][c].1);
    }
    if exists i, k :: 0 <= i < |rows| && Get(rows[i], k).Some? && Get(rows[i], k).value.SqlBlob? {
      var i, k :| 0 <= i < |rows| && Get(rows[i], k).Some? && Get(rows[i], k).value.SqlBlob?;
      var c := KeyIndex(rows[i], k).value;
      assert Get(rows[i], k) == Some(rows[i][c].1);
    }
  }
}

=== FILE: Schema.dfy ===
/**
 * The schema document built once at start-up: for every table, its column
 * names with their declared types, and its sampled rows keyed by column name.
 * The store's answers (the table list, `PRAGMA table_info`, the `LIMIT 3`
 * samples) are given as data.
 */
module Schema {
  import opened Wrappers
  import opened Dicts
  import opened Rows

  /** The two fields read from a `PRAGMA table_info` row: `col[1]` and `col[2]`. */
  datatype ColumnInfo = ColumnInfo(name: string, declaredType: string)

  /** What the store reports for one table. */
  datatype TableData = TableData(name: string, columns: seq<ColumnInfo>, samples: seq<seq<SqlValue>>)

  /** The document's entry for one table: `{"columns": ..., "examples": ...}`. */
  datatype TableEntry = TableEntry(columns: Dict<string>, examples: seq<Row>)

  /**
   * `{col[1]: col[2] for col in columns}`: each column name maps to the type of
   * its last declaration, and no other name is present.
   */
  function ColumnTypes(cols: seq<ColumnInfo>): (d: Dict<string>)
    ensures Distinct(Keys(d))
    ensures forall c :: 0 <= c < |cols| && (forall e :: c < e < |cols| ==> cols[e].name != cols[c].name)
              ==> Get(d, cols[c].name) == Some(cols[c].declaredType)
    ensures forall k :: (forall e :: 0 <= e < |cols| ==> cols[e].name != k) ==> Get(d, k) == None
  {
    var ps := seq(|cols|, i requires 0 <= i < |cols| => (cols[i].name, cols[i].declaredType));
    forall c | 0 <= c < |cols| && (forall e :: c < e < |cols| ==> cols[e].name != cols[c].name)
      ensures LastValue(ps, cols[c].name) == Some(cols[c].declaredType)
    {
      LastValueAt(ps, c);
    }
    forall k | (forall e :: 0 <= e < |cols| ==> cols[e].name != k)
      ensures LastValue(ps, k) == None
    {
      LastValueAbsent(ps, k);
    }
    FromPairs(ps)
  }

  /** The column names in declaration order. */
  function ColumnNames(cols: seq<ColumnInfo>): seq<string>
  {
    seq(|cols|, i requires 0 <= i < |cols| => cols[i].name)
  }

  /** With distinct names the column dict keeps the declaration order. */
  lemma ColumnTypesKeys(cols: seq<ColumnInfo>)
    requires Distinct(ColumnNames(cols))
    ensures Keys(ColumnTypes(cols)) == ColumnNames(cols)
  {
    var ps := seq(|cols|, i requires 0 <= i < |cols| => (cols[i].name, cols[i].declaredType));
    assert Keys(ps) == ColumnNames(cols);
    FromDistinctPairs(ps);
    assert ColumnTypes(cols) == FromPairs(ps);
  }

  /** The entry for one table; its samples are zipped with the column-name keys. */
  function EntryOf(t: TableData): (e: TableEntry)
    ensures e.columns == ColumnTypes(t.columns)
    ensures |e.examples| == |t.samples|
    ensures forall s :: 0 <= s < |t.samples| ==> Distinct(Keys(e.examples[s]))
  {
    var columns := ColumnTypes(t.columns);
    TableEntry(columns, ShapeRows(Keys(columns), t.samples))
  }

  /** Each table's name beside its entry, in the order the tables are listed. */
  function TablePairs(tables: seq<TableData>): seq<(string, TableEntry)>
  {
    seq(|tables|, i requires 0 <= i < |tables| => (tables[i].name, EntryOf(tables[i])))
  }

  /** One more table adds one more pair at the end. */
  lemma TablePairsAppend(tables: seq<TableData>, t: nat)
    requires t < |tables|
    ensures SchemaOf(tables[..t + 1]) == Put(SchemaOf(tables[..t]), tables[t].name, EntryOf(tables[t]))
  {
    var before, after := TablePairs(tables[..t]), TablePairs(tables[..t + 1]);
    assert after[..t] == before;
  }

  /**
   * The document after `schema_with_samples[name] = entry` for each table in
   * turn: the same as `dict` over the name/entry pairs.
   */
  function SchemaOf(tables: seq<TableData>): (d: Dict<TableEntry>)
    ensures Distinct(Keys(d))
    ensures |d| <= |tables|
  {
    FromPairs(TablePairs(tables))
  }

  /** The inner loop: one example row per sampled tuple, zipped with the column names. */
  method SampleRows(keys: seq<string>, samples: seq<seq<SqlValue>>) returns (sampleData: seq<Row>)
    ensures sampleData == ShapeRows(keys, samples)
  {
    sampleData := [];
    for s := 0 to |samples|
      invariant |sampleData| == s
      invariant forall j :: 0 <= j < s ==> sampleData[j] == ZipToDict(keys, samples[j])
    {
      sampleData := sampleData + [ZipToDict(keys, samples[s])];
    }
    ShapeRowsPointwise(keys, samples, sampleData);
  }

  /** `get_schema_with_samples` over data the store has already returned. */
  method SchemaWithSamples(tables: seq<TableData>) returns (schema: Dict<TableEntry>)
    ensures schema == SchemaOf(tables)
  {
    schema := [];
    for t := 0 to |tables|
      invariant schema == SchemaOf(tables[..t])
    {
      var table := tables[t];
      var columns := ColumnTypes(table.columns);
      var sampleData := SampleRows(Keys(columns), table.samples);
      TablePairsAppend(tables, t);
      schema := Put(schema, table.name, TableEntry(columns, sampleData));
    }
    assert tables[..|tables|] == tables;
  }

  /**
   * The document has one entry per distinct table name, holding the entry of
   * the last table reported under that name, and nothing else.
   */
  lemma SchemaEntries(tables: seq<TableData>)
    ensures Distinct(Keys(SchemaOf(tables)))
    ensures forall i :: 0 <= i < |tables| && (forall j :: i < j < |tables| ==> tables[j].name != tables[i].name)
              ==> Get(SchemaOf(tables), tables[i].name) == Some(EntryOf(tables[i]))
    ensures forall k :: (forall j :: 0 <= j < |tables| ==> tables[j].name != k)
              ==> Get(SchemaOf(tables), k) == None
  {
    var ps := TablePairs(tables);
    assert forall i :: 0 <= i < |tables| ==> ps[i] == (tables[i].name, EntryOf(tables[i]));
    FromPairsLookup(ps);
  }

  /**
   * With distinct column names and full-width samples, every example row has
   * exactly the table's column names as keys, in declaration order, each
   * beside the sampled value at its position.
   */
  lemma ExamplesFollowColumns(t: TableData)
    requires Distinct(ColumnNames(t.columns))
    requires forall s :: 0 <= s < |t.samples| ==> |t.columns| <= |t.samples[s]|
    ensures |EntryOf(t).examples| == |t.samples|
    ensures forall s :: 0 <= s < |t.samples| ==> Keys(EntryOf(t).examples[s]) == ColumnNames(t.columns)
    ensures forall s, c :: 0 <= s < |t.samples| && 0 <= c < |t.columns| ==>
              EntryOf(t).examples[s][c] == (t.columns[c].name, t.samples[s][c])
  {
    var names := ColumnNames(t.columns);
    ColumnTypesKeys(t.columns);
    var examples := EntryOf(t).examples;
    assert examples == ShapeRows(names, t.samples);
    ShapedRowsFollowLabels(names, t.samples);
    forall s, c | 0 <= s < |t.samples| && 0 <= c < |t.columns|
      ensures examples[s][c] == (t.columns[c].name, t.samples[s][c])
    {
      assert examples[s][c] == (names[c], t.samples[s][c]);
    }
  }
}

=== FILE: Strings.dfy ===
/**
 * The few Python string operations the core uses, on `string` (a `seq<char>`):
 * the substring test `t in s`, `s.replace(old, new, 1)`,
 * `s.index(c)` and `s.rindex(c)`, with the leftmost-occurrence search behind
 * the first two. All of them are case-sensitive and
 * work character by character.
 */
module Strings {
  import opened Wrappers

  /** `t` occurs in `s` starting at index `i`. */
  predicate OccursAt(s: string, t: string, i: int)
  {
    0 <= i && i + |t| <= |s| && s[i..i + |t|] == t
  }

  /** `t` is a substring of `s`. */
  ghost predicate Occurs(s: string, t: string)
  {
    exists i :: OccursAt(s, t, i)
  }

  /** `i` is the leftmost index at which `t` occurs in `s`. */
  ghost predicate FirstOccurrence(s: string, t: string, i: int)
  {
    OccursAt(s, t, i) && forall j :: 0 <= j < i ==> !OccursAt(s, t, j)
  }

  /** `a` is the index of the first `c` in `s`. */
  ghost predicate FirstIndex(s: string, c: char, a: int)
  {
    0 <= a < |s| && s[a] == c && c !in s[..a]
  }

  /** `b` is the index of the last `c` in `s`. */
  ghost predicate LastIndex(s: string, c: char, b: int)
  {
    0 <= b < |s| && s[b] == c && c !in s[b + 1..]
  }

  /** The leftmost occurrence of `t` in `s` at or after `from`. */
  function FindFrom(s: string, t: string, from: nat): (r: Option<nat>)
    requires from <= |s|
    decreases |s| - from
    ensures r.Some? ==> from <= r.value && OccursAt(s, t, r.value)
    ensures r.Some? ==> forall j :: from <= j < r.value ==> !OccursAt(s, t, j)
    ensures r.None? ==> forall j :: from <= j ==> !OccursAt(s, t, j)
  {
    if from + |t| > |s| then None
    else if s[from..from + |t|] == t then Some(from)
    else FindFrom(s, t, from + 1)
  }

  /** The leftmost occurrence of `t` in `s`, the search behind `t in s` and `s.replace(t, u, 1)`. */
  function Find(s: string, t: string): (r: Option<nat>)
    ensures r.Some? ==> FirstOccurrence(s, t, r.value)
    ensures r.None? <==> !Occurs(s, t)
  {
    FindFrom(s, t, 0)
  }

  /** Python's `t in s` on two strings. */
  function Contains(s: string, t: string): (r: bool)
    ensures r <==> Occurs(s, t)
  {
    Find(s, t).Some?
  }

  /**
   * Python's `s.replace(pat, rep, 1)`: the leftmost occurrence of `pat`
   * becomes `rep`; without an occurrence `s` comes back unchanged.
   */
  function ReplaceFirst(s: string, pat: string, rep: string): (r: string)
    ensures !Occurs(s, pat) ==> r == s
    ensures forall i :: FirstOccurrence(s, pat, i) ==>
              r == s[..i] + rep + s[i + |pat|..]
  {
    match Find(s, pat)
    case None => s
    case Some(i) =>
      assert forall j :: FirstOccurrence(s, pat, j) ==> j == i;
      s[..i] + rep + s[i + |pat|..]
  }

  /** Python's `s.index(c)`, with the ValueError as `None`. */
  function IndexOf(s: string, c: char): (r: Option<nat>)
    ensures r.Some? ==> FirstIndex(s, c, r.value)
    ensures r.None? <==> c !in s
  {
    if s == [] then None
    else if s[0] == c then Some(0)
    else match IndexOf(s[1..], c)
      case None => None
      case Some(i) =>
        assert s[..i + 1] == [s[0]] + s[1..][..i];
        Some(i + 1)
  }

  /** Python's `s.rindex(c)`, with the ValueError as `None`. */
  function LastIndexOf(s: string, c: char): (r: Option<nat>)
    ensures r.Some? ==> LastIndex(s, c, r.value)
    ensures r.None? <==> c !in s
  {
    if s == [] then None
    else if s[|s| - 1] == c then Some(|s| - 1)
    else
      var init := s[..|s| - 1];
      assert s == init + [s[|s| - 1]];
      match LastIndexOf(init, c)
      case None => None
      case Some(i) =>
        assert s[i + 1..] == init[i + 1..] + [s[|s| - 1]];
        Some(i)
  }

  /** The characters of an occurrence of `t` at `i`, one by one. */
  lemma OccursAtChars(s: string, t: string, i: int)
    requires OccursAt(s, t, i)
    ensures forall p :: i <= p < i + |t| ==> s[p] == t[p - i]
  {
    forall p | i <= p < i + |t| ensures s[p] == t[p - i] {
      assert s[p] == s[i..i + |t|][p - i];
    }
  }

  /** An occurrence carries over to a string that agrees with it, shifted by `d`. */
  lemma OccursAtShift(q: string, r: string, t: string, j: int, d: int)
    requires OccursAt(q, t, j) && 0 <= j + d && j + d + |t| <= |r|
    requires forall p :: j <= p < j + |t| ==> r[p + d] == q[p]
    ensures OccursAt(r, t, j + d)
  {
    assert r[j + d..j + d + |t|] == q[j..j + |t|];
  }

  /** A string that lacks one of the characters of `t` cannot contain `t`. */
  lemma MissingCharacterRulesOut(s: string, t: string, k: nat)
    requires k < |t| && t[k] !in s
    ensures !Occurs(s, t)
  {
  }
}

=== FILE: Wrappers.dfy ===
/** Option and Result values, for the source's "nothing there" and error returns. */
module Wrappers {

  datatype Option<+T> = None | Some(value: T)

  datatype Result<+T, +E> = Ok(value: T) | Err(error: E)
}
